=== FILE: README.md ===
# Wi-Fi Inspector: the parsing and selection core, in Dafny

Wi-Fi Inspector is a small local dashboard. It reports the current Wi-Fi
association and the host's main network interface. It gets this data by
running OS tools and parsing their text output: `netsh` on Windows,
`airport -I` on macOS, and `nmcli`, `iwgetid` and `iwconfig` on Linux.
This project models the part of `app.py` that turns that output into
records. The model has no I/O. Every command's output and every OS query
result is a parameter.

- `Command` (`command.dfy`): a command's outcome is either its captured
  standard output or a failure. `run_cmd` returns the stripped output, or
  `""` on failure.
- `Text` (`text.dfy`): the parts of Python's `str` that the parsers use.
  These are `strip()`, `lower()`, `startswith`, the `in` substring test,
  `split(":")`, `split(":", 1)` and `splitlines()`. The whitespace and
  line-boundary sets are Python's own. `lower()` is exact only on ASCII
  and the Kelvin sign (see "Left out").
- `ColonRecords` (`colon_records.dfy`): the `key: value` reader shared by
  the Windows and macOS probes. Each of the two tools has its own key
  whitelist and key renames.
- `WifiProbes` (`wifi_probes.dfy`): `get_windows_wifi` and `get_macos_wifi`.
- `Patterns` (`patterns.dfy`): the four fixed regular expressions of the
  `iwconfig` fallback. Each is a hand-written scanner that is proved equal
  to a declarative statement of what the expression matches. Search
  returns the leftmost match, as `re.search` does.
- `LinuxWifi` (`linux_wifi.dfy`): `get_linux_wifi`. The first active
  `nmcli -t` row wins. The `iwgetid`/`iwconfig` fallback runs only when no
  row qualifies.
- `NetInfo` (`net_info.dfy`): `get_basic_network_info`. It picks the
  first interface that is up and is not a loopback, then takes that
  interface's last IPv4 address and last link-layer address.
- `Snapshot` (`snapshot.dfy`): `gather_all`. It dispatches on the
  lower-cased OS name and builds a JSON object with exactly the keys
  `os`, `wifi` and `basic`.

The model follows the code in three places where a reader would expect
something else:

- One would expect the bssid field to hold the whole MAC. But the nmcli
  row is split at every colon, so a raw colon-separated BSSID is not put
  back together. A row like
  `yes:MyNet:AA:BB:CC:DD:EE:FF:6:2437:80:WPA2` gives bssid `AA`, channel
  `BB`, signal `DD%` and security `EE` (`LinuxWifi.NmcliMacSpills`). It
  does not give the full MAC.
- One would expect the first IPv4 address. But the address loop
  overwrites on every match, so the record holds the last one.
- The MAC is the last address whose family is AF_LINK or AF_PACKET. Neither
  family is preferred over the other.

## Model

| member | source | states |
|---|---|---|
| `Command.RunCmd` | app.py:10-21 | The result has no whitespace at either end. A completed command gives its output stripped of leading and trailing whitespace, and a failed one gives "". |
| `Text.Strip` | app.py:32-33 | The result is the slice of the input between two margins that are all whitespace, and it has no whitespace at either end. |
| `Text.LowerMatchesKey` | app.py:32-47 | For a key of lower-case letters, spaces and underscores, the lower-cased string equals the key exactly when it spells the key character by character. Each character may be the key's letter, its ASCII capital, or for 'k' the Kelvin sign. |
| `Text.SplitOnce` | app.py:30-31 | There is a result exactly when the separator occurs. The part before it, the separator and the part after it rebuild the input, and the first part has no separator. |
| `Text.Split` | app.py:84 | There is at least one field, no field holds the separator (a colon at app.py:84), and joining the fields with it gives back the input. |
| `Text.SplitLines` | app.py:29 | No line holds a line boundary, and there are no lines exactly when the input is empty. |
| `Text.SplitLinesJoin` | app.py:29 | Lines without boundaries joined by "\n", the last one non-empty as in stripped output, split back into exactly those lines, the last one included. |
| `Text.StripUnique` | app.py:32-33 | Each string has exactly one stripped form: the slice between two all-whitespace margins whose ends are not whitespace. |
| `Text.StripIdempotent` | app.py:32-33 | Stripping an already stripped string changes nothing. |
| `Text.LowerIdempotent` | app.py:32 | Lower-casing is idempotent, and its result contains no ASCII capital. |
| `Text.SplitOnceOfJoined` | app.py:31 | Splitting `k + ":" + v` at the first colon gives back `k` and `v` whenever `k` has no colon. `v` keeps any colons it contains. |
| `Text.SplitJoin` | app.py:84 | Splitting at every colon inverts joining colon-free fields with colons. |
| `Text.SplitLinesBreak` | app.py:29 | A line without boundaries followed by any one of `splitlines()`'s boundaries ("\n", "\v", "\f", "\r" not before "\n", "\x1c" to "\x1e", "\x85", "\u2028", "\u2029") is split off whole, and splitting resumes right after the boundary. |
| `Text.SplitLinesCrLf` | app.py:29 | "\r\n" after a line is one boundary: the line is split off whole and no empty line appears between "\r" and "\n". |
| `Text.ContainsIsInfix` | app.py:153-157 | Python's `t in s` holds exactly when `t` occurs at some index of `s`. |
| `ColonRecords.FieldOf` | app.py:34-74 | For netsh (lines 34-47) and airport (lines 63-74) alike, a key writes a field exactly when it is on the tool's key whitelist, and that field belongs to the tool's field set. Every other key writes nothing. |
| `ColonRecords.KeyValue` | app.py:30-33 | A line gives a key and value exactly when it holds a colon, and the value has no whitespace at either end. |
| `ColonRecords.KeyValueOfJoined` | app.py:29-33 | A line `k:v` with a colon-free `k` gives key `lower(strip(k))` and value `strip(v)`. |
| `ColonRecords.CollectIsLastWrite` | app.py:29-47 | After the loop, a field is present exactly when some line wrote it. It then holds the value from the last line that wrote it. |
| `ColonRecords.Read` | app.py:29-47 | The record's keys are whitelisted fields. A field is present exactly when some line writes it, and it holds the last line's value. |
| `WifiProbes.WindowsWifi` | app.py:23-48 | Keys are a subset of {ssid, bssid, signal, radio_type, authentication, cipher, channel}. Empty output gives an empty record. Each field holds the value of the last line that named it. |
| `WifiProbes.MacWifi` | app.py:50-75 | Keys are a subset of {ssid, rssi, noise, channel, bssid, country}. The record is empty when `os.name` is "nt" or the output is empty. Otherwise each field holds the value of the last line that named it. |
| `WifiProbes.NetshRenamesRadioType` | app.py:34-47 | "radio type" is stored as radio_type. Every other netsh field is stored under the key that names it. |
| `WifiProbes.AirportAliases` | app.py:63-68 | The keys "agrctlrssi" and "rssi" both fill rssi. The keys "agrctlnoise" and "noise" both fill noise. |
| `WifiProbes.AirportKeepsNames` | app.py:63-74 | On macOS, ssid, channel, bssid and country are each filled by exactly the key of the same name. |
| `WifiProbes.FirstColonSplitExample` | app.py:30-33 | The line "Key : Value : extra" gives key "key" and value "Value : extra". |
| `Patterns.MatchAt` | app.py:100-110 | A capture has the shape of its pattern's group. For example, an access point is exactly 17 characters from [0-9A-Fa-f:], and a signal level is a non-empty run of [-0-9]. |
| `Patterns.MatchAtIsMatch` | app.py:100-110 | For each of the four expressions, the scanner reports a match at index p with capture v exactly when the expression matches there with that group. |
| `Patterns.Search` | app.py:100-110 | A found capture has the shape of its pattern's group. |
| `Patterns.SearchIsLeftmostMatch` | app.py:100-110 | Search finds nothing exactly when no index starts a match. Otherwise it returns the capture of the match that starts at the leftmost index. |
| `LinuxWifi.ActiveRecord` | app.py:81-92 | The result is None exactly when no row has at least 7 colon-split fields with field 0 equal to "yes". Otherwise it is the record of the first such row. |
| `LinuxWifi.ActiveRecordIsFirst` | app.py:83-92 | Whichever row is the first active row, the record is that row's record. |
| `LinuxWifi.ActiveRecordShape` | app.py:84-91 | An nmcli record has exactly the keys ssid, bssid, channel, freq, signal and security. No value contains ':', and the signal ends in '%'. |
| `LinuxWifi.RowRecordShape` | app.py:86-91 | For colon-free fields, the row's record has the six keys and colon-free values, and its signal ends in '%'. |
| `LinuxWifi.NmcliRowRoundTrip` | app.py:84-91 | Parsing a row built from colon-free values gives back fields 1 to 6. The signal has '%' appended. |
| `LinuxWifi.NmcliMacSpills` | app.py:84-91 | When the bssid column holds a colon-separated MAC, bssid is the first octet and the later columns shift. |
| `LinuxWifi.Fallback` | app.py:94-112 | The iwgetid SSID is used when it is non-empty. An ESSID match overrides it only when an IEEE marker exists. bssid is present exactly when the marker exists and the "Access Point: " search finds a value. It then holds that value: exactly 17 characters from [0-9A-Fa-f:]. signal is present exactly when the marker exists and the "Signal level" search finds a value. It then holds that value: a non-empty run of [-0-9]. |
| `LinuxWifi.FallbackRecord` | app.py:94-112 | Without the marker only the iwgetid SSID can appear. With it, each value a search found overwrites its field. |
| `LinuxWifi.LinuxWifiInfo` | app.py:77-113 | Keys are a subset of {ssid, bssid, channel, freq, signal, security}. When some row is the first active row, the record is that row's record. When no row is active, it is the fallback record. |
| `LinuxWifi.FallbackOnlyWithoutActiveRow` | app.py:81-97 | When a row qualifies, the iwgetid and iwconfig outputs cannot change the record. When no row qualifies, the record is the fallback record. |
| `NetInfo.ChooseInterface` | app.py:120-128 | The result is None exactly when no interface is both up and non-loopback. Otherwise it is the name of the first such interface in enumeration order. |
| `NetInfo.WindowsLoopbackHasLoPrefix` | app.py:124 | "Loopback Pseudo-Interface 1" already passes the "lo" prefix test once lower-cased. |
| `NetInfo.ChooseInterfaceExample` | app.py:120-128 | For [lo up, eth0 down, eth1 up], eth1 is chosen. |
| `NetInfo.ScanAddressesKeepsLast` | app.py:132-140 | The loop leaves the last AF_INET address and the last AF_LINK/AF_PACKET address. Each is None when the list has no address of that kind. |
| `NetInfo.LastOfStep` | app.py:134-140 | One loop step preserves "holds the last address of this kind". |
| `NetInfo.BasicNetworkInfo` | app.py:115-148 | "interface" and "hostname" are always present. "ipv4" and "mac" are present exactly when a non-empty interface name was chosen, and then they hold that interface's last IPv4 address and last link-layer address. |
| `Snapshot.Classify` | app.py:151-160 | The platform is Windows when "windows" occurs in the OS name. Otherwise it is macOS when "darwin" or "mac" occurs, otherwise Linux when "linux" occurs, otherwise none. |
| `Snapshot.Wifi` | app.py:152-160 | The Wi-Fi record is the record of the selected platform's probe, so it holds only that platform's fields. It is empty for an unrecognised OS. |
| `Snapshot.GatherAll` | app.py:150-163 | The result is an object with exactly the keys os, wifi and basic. os is the lower-cased OS name. wifi is the record of the probe the OS name selects: netsh on Windows, airport on macOS, the Linux probe on Linux. It is empty for an unrecognised OS. basic is the basic network record. |
| `Snapshot.SnapshotKeepsRecords` | app.py:161-163 | The combined object loses nothing. Two equal snapshots have the same lower-cased OS name, the same Wi-Fi record and the same basic record. |
| `Snapshot.OnlySelectedProbeMatters` | app.py:153-160 | Exactly one probe runs: the wifi object depends only on the OS name and on the selected platform's command outputs. |

## Left out

- Process I/O in `run_cmd` (app.py:10-21) is not modelled: spawning, the `shell=True` retry and the 3-second timeout. Both attempts collapse into one outcome, either the captured output or a failure.
- The psutil and socket queries are not modelled; their results are inputs. These are `net_if_stats`, `net_if_addrs`, `gethostname` (with its exception turned into `None`) and the `os.name == 'nt'` test.
- `platform.system()` is not modelled; the OS name is an input string.
- Numeric address-family codes are not modelled. Each address arrives already classified as AF_INET, AF_LINK, AF_PACKET or other. The `getattr` presence tests for `AF_LINK` and `AF_PACKET` are assumed to succeed wherever the family occurs.
- The Flask app, its routes, `jsonify` and `render_template` (app.py:6-8, 165-175) are web plumbing and are not modelled.
- There is no general regular-expression engine. Only the four fixed expressions of app.py:100-110 are modelled. The interface name that app.py:100 captures is used only to test that a match exists.
- `Text.IsWordChar`: `\w` is modelled as ASCII `[A-Za-z0-9_]`. Python's Unicode `\w` also accepts non-ASCII letters and digits before the IEEE marker.
- `Text.Lower`: only ASCII capitals and the Kelvin sign are lowered. Other non-ASCII case mappings are not modelled. None of them lowers to a plain ASCII letter that could change a comparison with the ASCII keys, but the `os` string of the snapshot can differ from Python's output for such names.
- Dict key order in the `wifi` and `basic` objects is not modelled. JSON objects are maps.
- Text-mode decoding in `run_cmd` is not modelled. A completed command's output is taken to be already decoded text, with every "\r\n" and lone "\r" already turned into "\n". Its visible effects are on an ESSID capture that spans a line break and on an `iwgetid -r` SSID that contains a carriage return, which reaches the `ssid` field with "\n" in its place. The line-based parsers are unaffected, because `splitlines()` splits the raw and the translated text into the same lines.

=== FILE: colon_records.dfy ===
/**
 The `key: value` readers shared by the Windows (`netsh wlan show
 interfaces`) and macOS (`airport -I`) probes. Each line that contains a
 colon is split at its first colon; the key is stripped and lower-cased,
 the value stripped; a whitelisted key writes its value under a record
 field, later lines overwriting earlier ones.
 */
module ColonRecords {
  import opened Wrappers
  import opened Text

  /** Whose output is being read; each tool has its own whitelist. */
  datatype Dialect = Netsh | Airport

  const NetshFields: set<string> := {"ssid", "bssid", "signal", "radio_type", "authentication", "cipher", "channel"}
  const AirportFields: set<string> := {"ssid", "rssi", "noise", "channel", "bssid", "country"}

  function Fields(d: Dialect): set<string> {
    match d
    case Netsh => NetshFields
    case Airport => AirportFields
  }

  /** The normalised keys each tool's reader keeps. */
  const NetshKeys: set<string> := {"ssid", "bssid", "signal", "radio type", "authentication", "cipher", "channel"}
  const AirportKeys: set<string> := {"ssid", "agrctlrssi", "rssi", "agrctlnoise", "noise", "channel", "bssid", "country"}

  function Whitelist(d: Dialect): set<string> {
    match d
    case Netsh => NetshKeys
    case Airport => AirportKeys
  }

  /** The record field a normalised key writes, or `None` for a key the
      reader drops. */
  function FieldOf(d: Dialect, key: string): (f: Option<string>)
    ensures f.Some? ==> f.value in Fields(d)
    ensures f.None? <==> key !in Whitelist(d)
  {
    match d
    case Netsh =>
      if key == "ssid" then Some("ssid")
      else if key == "bssid" then Some("bssid")
      else if key == "signal" then Some("signal")
      else if key == "radio type" then Some("radio_type")
      else if key == "authentication" then Some("authentication")
      else if key == "cipher" then Some("cipher")
      else if key == "channel" then Some("channel")
      else None
    case Airport =>
      if key == "ssid" then Some("ssid")
      else if key == "agrctlrssi" || key == "rssi" then Some("rssi")
      else if key == "agrctlnoise" || key == "noise" then Some("noise")
      else if key == "channel" then Some("channel")
      else if key == "bssid" then Some("bssid")
      else if key == "country" then Some("country")
      else None
  }

  /** A line with a colon as (stripped lower-cased key, stripped value). */
  function KeyValue(line: string): (r: Option<(string, string)>)
    ensures r.Some? <==> ':' in line
    ensures r.Some? ==> Stripped(r.value.1)
  {
    match SplitOnce(line, ':')
    case None => None
    case Some((k, v)) => Some((Lower(Strip(k)), Strip(v)))
  }

  /** Only the first colon splits: whatever follows it, colons included,
      is the value, stripped. */
  lemma KeyValueOfJoined(k: string, v: string)
    requires ':' !in k
    ensures KeyValue(k + ":" + v) == Some((Lower(Strip(k)), Strip(v)))
  {
    SplitOnceOfJoined(k, ':', v);
  }

  /** The (field, value) a line writes under dialect `d`, if any. */
  function Entry(d: Dialect, line: string): (r: Option<(string, string)>)
    ensures r.Some? ==> r.value.0 in Fields(d) && ':' in line
  {
    match KeyValue(line)
    case None => None
    case Some((k, v)) =>
      match FieldOf(d, k)
      case None => None
      case Some(f) => Some((f, v))
  }

  /** What each line writes, in order. */
  function Entries(d: Dialect, lines: seq<string>): (es: seq<Option<(string, string)>>)
    ensures |es| == |lines|
    ensures forall i :: 0 <= i < |lines| ==> es[i] == Entry(d, lines[i])
  {
    seq(|lines|, i requires 0 <= i < |lines| => Entry(d, lines[i]))
  }

  /** Entry `e` writes field `f`. */
  predicate Writes(e: Option<(string, string)>, f: string) {
    e.Some? && e.value.0 == f
  }

  /** Entry `i` writes `v` into `f` and no later entry writes `f`. */
  predicate LastWrite(es: seq<Option<(string, string)>>, f: string, v: string, i: int) {
    && 0 <= i < |es|
    && es[i] == Some((f, v))
    && forall j :: i < j < |es| ==> !Writes(es[j], f)
  }

  /** The loop over the lines: each entry, in order, overwrites its field. */
  function Collect(es: seq<Option<(string, string)>>): map<string, string>
    decreases |es|
  {
    if es == [] then map[]
    else
      var info := Collect(es[..|es| - 1]);
      match es[|es| - 1]
      case None => info
      case Some((f, v)) => info[f := v]
  }

  /** A field is present exactly when some entry writes it, and it holds
      what the last such entry wrote. */
  lemma {:induction false} CollectIsLastWrite(es: seq<Option<(string, string)>>)
    ensures forall f :: f in Collect(es) <==> exists i :: 0 <= i < |es| && Writes(es[i], f)
    ensures forall f :: f in Collect(es) ==> exists i :: LastWrite(es, f, Collect(es)[f], i)
    decreases |es|
  {
    if es != [] {
      var init := es[..|es| - 1];
      var last := es[|es| - 1];
      CollectIsLastWrite(init);
      var before := Collect(init);
      var after := Collect(es);
      assert forall i :: 0 <= i < |init| ==> init[i] == es[i];
      forall f | f in after
        ensures exists i :: LastWrite(es, f, after[f], i)
      {
        if Writes(last, f) {
          assert LastWrite(es, f, after[f], |es| - 1);
        } else {
          var i :| LastWrite(init, f, before[f], i);
          assert LastWrite(es, f, after[f], i);
        }
      }
    }
  }

  /** The record the lines build. Only whitelisted fields appear; a field
      is present exactly when some line writes it, and it holds the value
      of the last line that does. */
  function Read(d: Dialect, lines: seq<string>): (info: map<string, string>)
    ensures info.Keys <= Fields(d)
    ensures forall f :: f in info <==> exists i :: 0 <= i < |lines| && Writes(Entry(d, lines[i]), f)
    ensures forall f :: f in info ==> exists i :: LastWrite(Entries(d, lines), f, info[f], i)
  {
    var es := Entries(d, lines);
    CollectIsLastWrite(es);
    Collect(es)
  }
}

=== FILE: command.dfy ===
/**
 The outcome of running one external command. Spawning the process, the
 second attempt through a shell and the timeout are not modelled: all
 that reaches the parsers is the captured standard output, or nothing.
 */
module Command {
  import opened Text

  datatype CmdResult =
    | Completed(stdout: string)  // the command ran; its standard output as decoded text, after
                                 // text mode has turned every "\r\n" and lone "\r" into "\n"
    | Failed                     // every attempt raised: spawn error, timeout, ...

  /** What `run_cmd` returns: the stripped standard output, or "" on failure. */
  function RunCmd(c: CmdResult): (out: string)
    ensures Stripped(out)
    ensures c.Failed? ==> out == ""
    ensures c.Completed? ==> IsStripOf(c.stdout, out)
  {
    match c
    case Completed(stdout) => Strip(stdout)
    case Failed => ""
  }
}

=== FILE: linux_wifi.dfy ===
/**
 The Linux Wi-Fi probe. The terse `nmcli -t` listing is tried first: the
 first row whose active flag is "yes" and that has at least seven
 colon-separated fields decides the record. Only when no row qualifies
 does the probe fall back to `iwgetid -r` for the SSID and to the
 `iwconfig` dump, searched with the four fixed patterns.
 */
module LinuxWifi {
  import opened Wrappers
  import opened Text
  import opened Command
  import opened Patterns

  const ActiveFlag := "yes"
  const MinFields := 7
  const NmcliFields: set<string> := {"ssid", "bssid", "channel", "freq", "signal", "security"}
  const FallbackFields: set<string> := {"ssid", "bssid", "signal"}

  // ------------------------------------------------------------- nmcli -t

  /** A row's fields: the row split at every colon. A colon inside a value,
      such as in a MAC address, starts a new field. */
  function RowFields(row: string): seq<string> {
    Split(row, ':')
  }

  predicate IsActiveRow(parts: seq<string>) {
    |parts| >= MinFields && parts[0] == ActiveFlag
  }

  /** The record an active row gives: fields 1 to 6, the signal with "%". */
  function RowRecord(parts: seq<string>): map<string, string>
    requires |parts| >= MinFields
  {
    map["ssid" := parts[1], "bssid" := parts[2], "channel" := parts[3],
        "freq" := parts[4], "signal" := parts[5] + "%", "security" := parts[6]]
  }

  /** Row `i` is active and no earlier row is. */
  predicate FirstActive(rows: seq<string>, i: int) {
    && 0 <= i < |rows|
    && IsActiveRow(RowFields(rows[i]))
    && forall j :: 0 <= j < i ==> !IsActiveRow(RowFields(rows[j]))
  }

  /** The record of the first active row, if there is one. */
  function ActiveRecord(rows: seq<string>): (r: Option<map<string, string>>)
    ensures r.None? <==> forall i :: 0 <= i < |rows| ==> !IsActiveRow(RowFields(rows[i]))
    ensures r.Some? ==> exists i :: FirstActive(rows, i) && r.value == RowRecord(RowFields(rows[i]))
    decreases |rows|
  {
    if rows == [] then None
    else if IsActiveRow(RowFields(rows[0])) then
      assert FirstActive(rows, 0);
      Some(RowRecord(RowFields(rows[0])))
    else
      var r := ActiveRecord(rows[1..]);
      assert forall i :: 1 <= i < |rows| ==> rows[1..][i - 1] == rows[i];
      if r.Some? then
        var i :| FirstActive(rows[1..], i) && r.value == RowRecord(RowFields(rows[1..][i]));
        FirstActiveShift(rows, i);
        r
      else r
  }

  /** Past an inactive first row, the first active row of the rest is the
      first active row of all. */
  lemma FirstActiveShift(rows: seq<string>, i: int)
    requires rows != [] && !IsActiveRow(RowFields(rows[0]))
    requires FirstActive(rows[1..], i)
    ensures FirstActive(rows, i + 1) && rows[i + 1] == rows[1..][i]
  {
    assert forall j :: 1 <= j <= i ==> rows[j] == rows[1..][j - 1];
  }

  /** Only one row can be the first active row, so the record of every
      first active row is the one `ActiveRecord` returns. */
  lemma ActiveRecordIsFirst(rows: seq<string>)
    ensures forall i :: FirstActive(rows, i) ==> ActiveRecord(rows) == Some(RowRecord(RowFields(rows[i])))
  {
    forall i | FirstActive(rows, i)
      ensures ActiveRecord(rows) == Some(RowRecord(RowFields(rows[i])))
    {
      assert IsActiveRow(RowFields(rows[i]));
      var r := ActiveRecord(rows);
      assert r.Some?;
      var j :| FirstActive(rows, j) && r.value == RowRecord(RowFields(rows[j]));
      assert IsActiveRow(RowFields(rows[j]));
    }
  }

  /** An nmcli record has exactly the six fields, none holding a colon, and
      the signal ends in "%". */
  lemma ActiveRecordShape(rows: seq<string>)
    requires ActiveRecord(rows).Some?
    ensures ActiveRecord(rows).value.Keys == NmcliFields
    ensures forall f :: f in ActiveRecord(rows).value ==> ':' !in ActiveRecord(rows).value[f]
    ensures var sig := ActiveRecord(rows).value["signal"]; sig != [] && sig[|sig| - 1] == '%'
  {
    var i :| FirstActive(rows, i) && ActiveRecord(rows).value == RowRecord(RowFields(rows[i]));
    RowRecordShape(RowFields(rows[i]));
  }

  lemma RowRecordShape(parts: seq<string>)
    requires |parts| >= MinFields
    requires forall k :: 0 <= k < |parts| ==> ':' !in parts[k]
    ensures RowRecord(parts).Keys == NmcliFields
    ensures forall f :: f in RowRecord(parts) ==> ':' !in RowRecord(parts)[f]
    ensures var sig := RowRecord(parts)["signal"]; sig != [] && sig[|sig| - 1] == '%'
  {
    var m := RowRecord(parts);
    assert ':' !in parts[5] + "%";
    forall f | f in m ensures ':' !in m[f] {
      assert f in NmcliFields;
    }
  }

  /** A row built from colon-free values reads back as those values. */
  lemma NmcliRowRoundTrip(ssid: string, bssid: string, chan: string, freq: string, signal: string, security: string)
    requires ':' !in ssid && ':' !in bssid && ':' !in chan && ':' !in freq && ':' !in signal && ':' !in security
    ensures ActiveRecord([Join([ActiveFlag, ssid, bssid, chan, freq, signal, security], ':')])
      == Some(map["ssid" := ssid, "bssid" := bssid, "channel" := chan, "freq" := freq,
                  "signal" := signal + "%", "security" := security])
  {
    var parts := [ActiveFlag, ssid, bssid, chan, freq, signal, security];
    SplitJoin(parts, ':');
    var rows := [Join(parts, ':')];
    assert RowFields(rows[0]) == parts;
  }

  /** A raw colon-separated MAC is not put back together: when the bssid
      column holds the six octets of a MAC joined by colons, as in
      "yes:MyNet:AA:BB:CC:DD:EE:FF:6:2437:80:WPA2", the bssid is the first
      octet and the later columns take the following octets. */
  lemma NmcliMacSpills(ssid: string, octets: seq<string>, rest: seq<string>)
    requires |octets| == 6
    requires ':' !in ssid
    requires forall k :: 0 <= k < |octets| ==> ':' !in octets[k]
    requires forall k :: 0 <= k < |rest| ==> ':' !in rest[k]
    ensures ActiveRecord([Join([ActiveFlag, ssid] + octets + rest, ':')])
      == Some(map["ssid" := ssid, "bssid" := octets[0], "channel" := octets[1], "freq" := octets[2],
                  "signal" := octets[3] + "%", "security" := octets[4]])
  {
    var parts := [ActiveFlag, ssid] + octets + rest;
    assert forall k :: 0 <= k < |parts| ==> ':' !in parts[k];
    SplitJoin(parts, ':');
    var rows := [Join(parts, ':')];
    assert RowFields(rows[0]) == parts;
    assert parts[0] == ActiveFlag && parts[1] == ssid;
    assert parts[2] == octets[0] && parts[3] == octets[1] && parts[4] == octets[2];
    assert parts[5] == octets[3] && parts[6] == octets[4];
    assert IsActiveRow(parts);
  }

  // --------------------------------------------------- iwgetid + iwconfig

  /** The `iwconfig` dump names a wireless interface (`\w+` then `IEEE`). */
  predicate HasIeeeMarker(iwconfig: string) {
    iwconfig != "" && Search(IeeeMarker, iwconfig).Some?
  }

  /** The fallback record: the `iwgetid` SSID when non-empty; then, only if
      the dump has an IEEE marker, the ESSID, access point and signal
      level found in the dump, each overwriting what came before. */
  function Fallback(ssid: string, iwconfig: string): (info: map<string, string>)
    ensures info.Keys <= FallbackFields
    ensures !HasIeeeMarker(iwconfig) ==> info.Keys <= {"ssid"}
    ensures "ssid" in info <==> ssid != "" || (HasIeeeMarker(iwconfig) && Search(Essid, iwconfig).Some?)
    ensures HasIeeeMarker(iwconfig) && Search(Essid, iwconfig).Some? ==> info["ssid"] == Search(Essid, iwconfig).value
    ensures "ssid" in info && !(HasIeeeMarker(iwconfig) && Search(Essid, iwconfig).Some?) ==> info["ssid"] == ssid
    ensures "ssid" in info ==> info["ssid"] != ""
    ensures "bssid" in info <==> HasIeeeMarker(iwconfig) && Search(AccessPoint, iwconfig).Some?
    ensures "bssid" in info ==> info["bssid"] == Search(AccessPoint, iwconfig).value
    ensures "bssid" in info ==> |info["bssid"]| == MacLength && AllIn(info["bssid"], HexOrColon)
    ensures "signal" in info <==> HasIeeeMarker(iwconfig) && Search(SignalLevel, iwconfig).Some?
    ensures "signal" in info ==> info["signal"] == Search(SignalLevel, iwconfig).value
    ensures "signal" in info ==> info["signal"] != [] && AllIn(info["signal"], DigitOrMinus)
  {
    var essid, ap, sig := Search(Essid, iwconfig), Search(AccessPoint, iwconfig), Search(SignalLevel, iwconfig);
    assert essid.Some? ==> essid.value != [];
    assert ap.Some? ==> |ap.value| == MacLength && AllIn(ap.value, HexOrColon);
    assert sig.Some? ==> sig.value != [] && AllIn(sig.value, DigitOrMinus);
    FallbackRecord(ssid, HasIeeeMarker(iwconfig), essid, ap, sig)
  }

  /** The fallback record from what the searches found: the SSID when
      non-empty; then, only when `marker` holds, each found value
      overwrites its field. */
  function FallbackRecord(ssid: string, marker: bool, essid: Option<string>, ap: Option<string>, sig: Option<string>)
    : (info: map<string, string>)
    ensures info.Keys <= FallbackFields
    ensures !marker ==> info.Keys <= {"ssid"}
    ensures "ssid" in info <==> ssid != "" || (marker && essid.Some?)
    ensures marker && essid.Some? ==> info["ssid"] == essid.value
    ensures "ssid" in info && !(marker && essid.Some?) ==> info["ssid"] == ssid
    ensures "bssid" in info <==> marker && ap.Some?
    ensures "bssid" in info ==> info["bssid"] == ap.value
    ensures "signal" in info <==> marker && sig.Some?
    ensures "signal" in info ==> info["signal"] == sig.value
  {
    var fromIwgetid := if ssid != "" then map["ssid" := ssid] else map[];
    if !marker then fromIwgetid
    else Put(Put(Put(fromIwgetid, "ssid", essid), "bssid", ap), "signal", sig)
  }

  /** `info[key] = v` when a search found `v`; otherwise `info` unchanged. */
  function Put(info: map<string, string>, key: string, found: Option<string>): (r: map<string, string>)
    ensures r.Keys == if found.Some? then info.Keys + {key} else info.Keys
    ensures forall k :: k in r ==> r[k] == if found.Some? && k == key then found.value else info[k]
  {
    match found
    case Some(v) => info[key := v]
    case None => info
  }

  // --------------------------------------------------------------- probe

  /** The rows of the `nmcli` output. */
  function NmcliRows(nmcli: CmdResult): seq<string> {
    SplitLines(RunCmd(nmcli))
  }

  /** The Linux probe: the record of the first qualifying nmcli row when
      there is one, else the fallback record. */
  function LinuxWifiInfo(nmcli: CmdResult, iwgetid: CmdResult, iwconfig: CmdResult): (info: map<string, string>)
    ensures info.Keys <= NmcliFields
    ensures forall i :: FirstActive(NmcliRows(nmcli), i) ==> info == RowRecord(RowFields(NmcliRows(nmcli)[i]))
    ensures (forall i :: 0 <= i < |NmcliRows(nmcli)| ==> !IsActiveRow(RowFields(NmcliRows(nmcli)[i]))) ==>
      info == Fallback(RunCmd(iwgetid), RunCmd(iwconfig))
  {
    match ActiveRecord(NmcliRows(nmcli))
    case Some(record) =>
      ActiveRecordIsFirst(NmcliRows(nmcli));
      record
    case None => Fallback(RunCmd(iwgetid), RunCmd(iwconfig))
  }

  /** The fallback tools are consulted only when no nmcli row qualifies:
      with a qualifying row their output cannot change the record, and
      without one the record is the fallback record. */
  lemma FallbackOnlyWithoutActiveRow(nmcli: CmdResult, iwgetid: CmdResult, iwconfig: CmdResult,
                                     iwgetid': CmdResult, iwconfig': CmdResult)
    ensures ActiveRecord(NmcliRows(nmcli)).Some? ==>
      LinuxWifiInfo(nmcli, iwgetid, iwconfig) == LinuxWifiInfo(nmcli, iwgetid', iwconfig')
    ensures ActiveRecord(NmcliRows(nmcli)).None? ==>
      LinuxWifiInfo(nmcli, iwgetid, iwconfig) == Fallback(RunCmd(iwgetid), RunCmd(iwconfig))
  {
  }
}

=== FILE: net_info.dfy ===
/**
 The "basic" part of the snapshot: pick the likely active interface and
 read its addresses. The interface table (`net_if_stats`, in the order
 the system enumerates it), the address lists (`net_if_addrs`) and the
 host name are inputs.
 */
module NetInfo {
  import opened Wrappers
  import opened Text

  /** One entry of the interface table: its name and whether it is up. */
  datatype IfStats = IfStats(name: string, isUp: bool)

  /** An address family as the address list reports it. `Link` is the
      platform's link-layer family (AF_LINK), `Packet` the raw packet
      family (AF_PACKET). */
  datatype Family = Inet | Link | Packet | OtherFamily(code: int)

  datatype IfAddr = IfAddr(family: Family, address: string)

  const WindowsLoopback := "Loopback Pseudo-Interface 1"

  /** A name the selector treats as loopback. */
  predicate IsLoopbackName(name: string) {
    StartsWith(Lower(name), "lo") || name == WindowsLoopback
  }

  /** An interface the selector may choose: up and not loopback. */
  predicate Eligible(st: IfStats) {
    st.isUp && !IsLoopbackName(st.name)
  }

  /** Entry `i` is eligible and no earlier entry is. */
  predicate FirstEligible(stats: seq<IfStats>, i: int) {
    0 <= i < |stats| && Eligible(stats[i]) && forall j :: 0 <= j < i ==> !Eligible(stats[j])
  }

  /** The chosen interface: the first eligible one in enumeration order,
      `None` when there is none. */
  function ChooseInterface(stats: seq<IfStats>): (chosen: Option<string>)
    ensures chosen.None? <==> forall i :: 0 <= i < |stats| ==> !Eligible(stats[i])
    ensures chosen.Some? ==> exists i :: FirstEligible(stats, i) && stats[i].name == chosen.value
    decreases |stats|
  {
    if stats == [] then None
    else if Eligible(stats[0]) then
      assert FirstEligible(stats, 0);
      Some(stats[0].name)
    else
      var chosen := ChooseInterface(stats[1..]);
      assert forall i :: 1 <= i < |stats| ==> stats[1..][i - 1] == stats[i];
      if chosen.Some? then
        var i :| FirstEligible(stats[1..], i) && stats[1..][i].name == chosen.value;
        assert FirstEligible(stats, i + 1);
        chosen
      else chosen
  }

  /** The literal Windows loopback name is already caught by the prefix
      test: its lower-cased form starts with "lo". */
  lemma WindowsLoopbackHasLoPrefix()
    ensures StartsWith(Lower(WindowsLoopback), "lo")
  {
    assert Lower(WindowsLoopback)[..2] == "lo";
  }

  /** The example table [lo up, eth0 down, eth1 up] selects "eth1". */
  lemma ChooseInterfaceExample()
    ensures ChooseInterface([IfStats("lo", true), IfStats("eth0", false), IfStats("eth1", true)]) == Some("eth1")
  {
    var stats := [IfStats("lo", true), IfStats("eth0", false), IfStats("eth1", true)];
    assert Lower("lo")[..2] == "lo";
    assert !Eligible(stats[0]) && !Eligible(stats[1]);
    assert Lower("eth1")[0] == 'e';
    assert Eligible(stats[2]);
    assert FirstEligible(stats, 2);
  }

  // ------------------------------------------------------------ addresses

  /** Which address a field takes: IPv4, or link-layer for the MAC. */
  datatype AddrKind = Ipv4 | Mac

  predicate OfKind(a: IfAddr, kind: AddrKind) {
    match kind
    case Ipv4 => a.family.Inet?
    case Mac => a.family.Link? || a.family.Packet?
  }

  /** `r` is the address of the last entry of `kind`, or `None` when no
      entry has that kind. */
  ghost predicate IsLastOf(addrs: seq<IfAddr>, kind: AddrKind, r: Option<string>) {
    && (r.None? <==> forall i :: 0 <= i < |addrs| ==> !OfKind(addrs[i], kind))
    && (r.Some? ==> exists i :: LastOfKindAt(addrs, kind, i) && addrs[i].address == r.value)
  }

  /** Entry `i` has `kind` and no later entry does. */
  predicate LastOfKindAt(addrs: seq<IfAddr>, kind: AddrKind, i: int) {
    0 <= i < |addrs| && OfKind(addrs[i], kind) && forall j :: i < j < |addrs| ==> !OfKind(addrs[j], kind)
  }

  /** The address loop: each IPv4 entry overwrites `ipv4`, each link-layer
      entry overwrites `mac`. */
  function ScanAddresses(addrs: seq<IfAddr>): (r: (Option<string>, Option<string>))
    decreases |addrs|
  {
    if addrs == [] then (None, None)
    else
      var (ipv4, mac) := ScanAddresses(addrs[..|addrs| - 1]);
      var a := addrs[|addrs| - 1];
      if a.family.Inet? then (Some(a.address), mac)
      else if a.family.Link? then (ipv4, Some(a.address))
      else if a.family.Packet? then (ipv4, Some(a.address))
      else (ipv4, mac)
  }

  /** The loop leaves the last IPv4 address and the last link-layer
      address, not the first. */
  lemma {:induction false} ScanAddressesKeepsLast(addrs: seq<IfAddr>)
    ensures IsLastOf(addrs, Ipv4, ScanAddresses(addrs).0)
    ensures IsLastOf(addrs, Mac, ScanAddresses(addrs).1)
    decreases |addrs|
  {
    if addrs != [] {
      var init := addrs[..|addrs| - 1];
      ScanAddressesKeepsLast(init);
      assert forall i :: 0 <= i < |init| ==> init[i] == addrs[i];
      var last := |addrs| - 1;
      LastOfStep(addrs, Ipv4, ScanAddresses(init).0, ScanAddresses(addrs).0);
      LastOfStep(addrs, Mac, ScanAddresses(init).1, ScanAddresses(addrs).1);
    }
  }

  /** One loop step keeps `IsLastOf`: the last entry replaces the result
      when it has the kind, and leaves it alone otherwise. */
  lemma LastOfStep(addrs: seq<IfAddr>, kind: AddrKind, before: Option<string>, after: Option<string>)
    requires addrs != []
    requires IsLastOf(addrs[..|addrs| - 1], kind, before)
    requires after == (if OfKind(addrs[|addrs| - 1], kind) then Some(addrs[|addrs| - 1].address) else before)
    ensures IsLastOf(addrs, kind, after)
  {
    var init := addrs[..|addrs| - 1];
    var n := |addrs| - 1;
    assert forall i :: 0 <= i < |init| ==> init[i] == addrs[i];
    if OfKind(addrs[n], kind) {
      assert LastOfKindAt(addrs, kind, n);
    } else if before.Some? {
      var i :| LastOfKindAt(init, kind, i) && init[i].address == before.value;
      assert LastOfKindAt(addrs, kind, i);
    }
  }

  // ---------------------------------------------------------------- record

  /** Python truthiness of the chosen name: `None` and "" are false. */
  predicate Truthy(chosen: Option<string>) {
    chosen.Some? && chosen.value != ""
  }

  /** `addrs.get(name, [])` */
  function AddressesOf(addrs: map<string, seq<IfAddr>>, name: string): seq<IfAddr> {
    if name in addrs then addrs[name] else []
  }

  /** The basic record. "interface" and "hostname" are always present;
      "ipv4" and "mac" only when a (non-empty) interface name was chosen,
      and then they hold that interface's last IPv4 and last link-layer
      address. */
  function BasicNetworkInfo(stats: seq<IfStats>, addrs: map<string, seq<IfAddr>>, hostname: Option<string>)
    : (data: map<string, Option<string>>)
    ensures "interface" in data && "hostname" in data && data["hostname"] == hostname
    ensures data["interface"].None? <==> forall i :: 0 <= i < |stats| ==> !Eligible(stats[i])
    ensures data["interface"].Some? ==> exists i :: FirstEligible(stats, i) && stats[i].name == data["interface"].value
    ensures data.Keys == {"interface", "hostname"} + (if Truthy(data["interface"]) then {"ipv4", "mac"} else {})
    ensures Truthy(data["interface"]) ==>
      var own := AddressesOf(addrs, data["interface"].value);
      IsLastOf(own, Ipv4, data["ipv4"]) && IsLastOf(own, Mac, data["mac"])
  {
    var chosen := ChooseInterface(stats);
    var data := map["interface" := chosen];
    var data :=
      if Truthy(chosen) then
        var own := AddressesOf(addrs, chosen.value);
        ScanAddressesKeepsLast(own);
        var (ipv4, mac) := ScanAddresses(own);
        data["ipv4" := ipv4]["mac" := mac]
      else data;
    data["hostname" := hostname]
  }
}

=== FILE: patterns.dfy ===
/**
 The four fixed regular expressions the iwconfig fallback searches with,
 hand-coded as scanners. `MatchAt` answers "does the pattern match at this
 index, and what does its group capture"; `Search` is `re.search`: the
 match at the leftmost index. `Matches` states each pattern's meaning
 without the scanners, and `MatchAtIsMatch` proves the two agree.
 */
module Patterns {
  import opened Wrappers
  import opened Text

  datatype Pattern =
    | IeeeMarker   // (\w+)\s+IEEE
    | Essid        // ESSID:"([^"]+)"
    | AccessPoint  // Access Point: ([0-9A-Fa-f:]{17})
    | SignalLevel  // Signal level[=|:]\s*([-0-9]+)

  const IeeeWord := "IEEE"
  const EssidLead := "ESSID:\""
  const AccessPointLead := "Access Point: "
  const MacLength := 17
  const SignalLead := "Signal level"

  /** `[^"]` */
  const NotQuote := Not(Exactly('"'))

  /** `[=|:]` */
  predicate IsSignalSeparator(c: char) {
    c == '=' || c == '|' || c == ':'
  }

  /** `lead` occurs in `s` at index `p`. */
  predicate LeadAt(s: string, p: nat, lead: string) {
    p + |lead| <= |s| && s[p..p + |lead|] == lead
  }

  /** What each pattern's group can capture. */
  predicate CaptureShape(pat: Pattern, v: string) {
    match pat
    case IeeeMarker => v != [] && AllIn(v, Word)
    case Essid => v != [] && AllIn(v, NotQuote)
    case AccessPoint => |v| == MacLength && AllIn(v, HexOrColon)
    case SignalLevel => v != [] && AllIn(v, DigitOrMinus)
  }

  /** The group a match of `pat` starting at index `p` captures, or `None`
      when no match starts there. */
  function MatchAt(pat: Pattern, s: string, p: nat): (r: Option<string>)
    requires p <= |s|
    ensures r.Some? ==> CaptureShape(pat, r.value)
  {
    match pat
    case IeeeMarker =>
      var w := RunEnd(s, Word, p);
      var e := RunEnd(s, Space, w);
      if p < w < e && LeadAt(s, e, IeeeWord) then
        RunSlice(s, Word, p, w);
        Some(s[p..w])
      else None
    case Essid =>
      var b := p + |EssidLead|;
      if !LeadAt(s, p, EssidLead) then None
      else
        var q := RunEnd(s, NotQuote, b);
        if b < q < |s| then
          RunSlice(s, NotQuote, b, q);
          Some(s[b..q])
        else None
    case AccessPoint =>
      var b := p + |AccessPointLead|;
      if LeadAt(s, p, AccessPointLead) && b + MacLength <= RunEnd(s, HexOrColon, b)
      then
        RunSlice(s, HexOrColon, b, b + MacLength);
        Some(s[b..b + MacLength])
      else None
    case SignalLevel =>
      var b := p + |SignalLead|;
      if LeadAt(s, p, SignalLead) && b < |s| && IsSignalSeparator(s[b]) then
        var w := RunEnd(s, Space, b + 1);
        var e := RunEnd(s, DigitOrMinus, w);
        if w < e then
          RunSlice(s, DigitOrMinus, w, e);
          Some(s[w..e])
        else None
      else None
  }

  /** The meaning of each pattern: a match starts at `p` and its group
      captures `v`. Greedy runs are maximal exactly where the pattern
      continues with a class disjoint from the run. */
  ghost predicate Matches(pat: Pattern, s: string, p: nat, v: string) {
    match pat
    case IeeeMarker =>
      && p + |v| <= |s| && s[p..p + |v|] == v && v != [] && AllIn(v, Word)
      && exists e :: SpacesThenIeee(s, p, v, e)
    case Essid =>
      var b := p + |EssidLead|;
      && LeadAt(s, p, EssidLead)
      && b + |v| < |s| && s[b..b + |v|] == v
      && v != [] && AllIn(v, NotQuote) && s[b + |v|] == '"'
    case AccessPoint =>
      var b := p + |AccessPointLead|;
      && LeadAt(s, p, AccessPointLead)
      && b + MacLength <= |s| && v == s[b..b + MacLength] && AllIn(v, HexOrColon)
    case SignalLevel =>
      var b := p + |SignalLead|;
      && LeadAt(s, p, SignalLead) && b < |s| && IsSignalSeparator(s[b])
      && exists w :: SpacesThenDigits(s, p, w, v)
  }

  /** `\s+IEEE` right after the group `v` captured from index `p`, the
      `IEEE` starting at `e`. */
  predicate SpacesThenIeee(s: string, p: nat, v: string, e: int) {
    var a := p + |v|;
    a < e <= |s| && AllIn(s[a..e], Space) && LeadAt(s, e, IeeeWord)
  }

  /** `\s*([-0-9]+)` after the separator of a `Signal level` lead at `p`,
      the group `v` starting at `w` and running as far as it can. */
  predicate SpacesThenDigits(s: string, p: nat, w: int, v: string) {
    var a := p + |SignalLead| + 1;
    && a <= w && w + |v| <= |s| && AllIn(s[a..w], Space)
    && s[w..w + |v|] == v && v != [] && AllIn(v, DigitOrMinus)
    && (w + |v| == |s| || !In(DigitOrMinus, s[w + |v|]))
  }

  /** The scanner finds exactly the matches the pattern describes. */
  lemma MatchAtIsMatch(pat: Pattern, s: string, p: nat, v: string)
    requires p <= |s|
    ensures MatchAt(pat, s, p) == Some(v) <==> Matches(pat, s, p, v)
  {
    match pat
    case IeeeMarker => IeeeMarkerAt(s, p, v);
    case Essid => EssidAt(s, p, v);
    case AccessPoint => AccessPointAt(s, p, v);
    case SignalLevel => SignalLevelAt(s, p, v);
  }

  lemma IeeeMarkerAt(s: string, p: nat, v: string)
    requires p <= |s|
    ensures MatchAt(IeeeMarker, s, p) == Some(v) <==> Matches(IeeeMarker, s, p, v)
  {
    if MatchAt(IeeeMarker, s, p) == Some(v) {
      var w := RunEnd(s, Word, p);
      var e := RunEnd(s, Space, w);
      assert AllIn(s[w..e], Space);
      assert SpacesThenIeee(s, p, v, e);
    }
    if Matches(IeeeMarker, s, p, v) {
      IeeeMarkerComplete(s, p, v);
    }
  }

  lemma IeeeMarkerComplete(s: string, p: nat, v: string)
    requires p <= |s| && Matches(IeeeMarker, s, p, v)
    ensures MatchAt(IeeeMarker, s, p) == Some(v)
  {
    var e :| SpacesThenIeee(s, p, v, e);
    var w := p + |v|;
    assert s[e..e + 4][0] == s[e] == 'I';
    assert s[w..e][0] == s[w];
    SliceRunEnd(s, Word, p, w);
    SliceRunEnd(s, Space, w, e);
  }

  lemma EssidAt(s: string, p: nat, v: string)
    requires p <= |s|
    ensures MatchAt(Essid, s, p) == Some(v) <==> Matches(Essid, s, p, v)
  {
    var b := p + |EssidLead|;
    if MatchAt(Essid, s, p) == Some(v) {
      var q := RunEnd(s, NotQuote, b);
      assert !In(NotQuote, s[q]);
      assert In(Exactly('"'), s[q]);
    }
    if Matches(Essid, s, p, v) {
      assert forall k :: b <= k < b + |v| ==> s[k] == v[k - b];
      assert !In(NotQuote, s[b + |v|]);
      RunEndUnique(s, NotQuote, b, b + |v|);
    }
  }

  lemma AccessPointAt(s: string, p: nat, v: string)
    requires p <= |s|
    ensures MatchAt(AccessPoint, s, p) == Some(v) <==> Matches(AccessPoint, s, p, v)
  {
    var b := p + |AccessPointLead|;
    if Matches(AccessPoint, s, p, v) {
      assert forall k :: b <= k < b + MacLength ==> s[k] == v[k - b];
      RunEndCovers(s, HexOrColon, b, b + MacLength);
    }
  }

  lemma SignalLevelAt(s: string, p: nat, v: string)
    requires p <= |s|
    ensures MatchAt(SignalLevel, s, p) == Some(v) <==> Matches(SignalLevel, s, p, v)
  {
    if MatchAt(SignalLevel, s, p) == Some(v) {
      SignalLevelSound(s, p, v);
    }
    if Matches(SignalLevel, s, p, v) {
      SignalLevelComplete(s, p, v);
    }
  }

  lemma SignalLevelSound(s: string, p: nat, v: string)
    requires p <= |s| && MatchAt(SignalLevel, s, p) == Some(v)
    ensures Matches(SignalLevel, s, p, v)
  {
    var b := p + |SignalLead|;
    var w := RunEnd(s, Space, b + 1);
    assert AllIn(s[b + 1..w], Space);
    assert SpacesThenDigits(s, p, w, v);
  }

  lemma SignalLevelComplete(s: string, p: nat, v: string)
    requires p <= |s| && Matches(SignalLevel, s, p, v)
    ensures MatchAt(SignalLevel, s, p) == Some(v)
  {
    var b := p + |SignalLead|;
    var w :| SpacesThenDigits(s, p, w, v);
    assert s[w] == v[0] && In(DigitOrMinus, v[0]);
    SliceRunEnd(s, Space, b + 1, w);
    assert s[w..w + |v|] == v;
    SliceRunEnd(s, DigitOrMinus, w, w + |v|);
  }

  /** What a match starting at each index `0..|s|` captures. */
  function MatchTable(pat: Pattern, s: string): (t: seq<Option<string>>)
    ensures |t| == |s| + 1
    ensures forall p :: 0 <= p <= |s| ==> t[p] == MatchAt(pat, s, p)
  {
    seq(|s| + 1, p requires 0 <= p <= |s| => MatchAt(pat, s, p))
  }

  /** The first present entry at or after `from`. */
  function FirstFound(t: seq<Option<string>>, from: nat): (r: Option<string>)
    requires from <= |t|
    ensures r.None? <==> forall p :: from <= p < |t| ==> t[p].None?
    ensures r.Some? ==> exists p :: FirstFoundAt(t, from, p) && t[p] == r
    decreases |t| - from
  {
    if from == |t| then None
    else if t[from].Some? then
      assert FirstFoundAt(t, from, from);
      t[from]
    else
      var r := FirstFound(t, from + 1);
      if r.Some? then
        var p :| FirstFoundAt(t, from + 1, p) && t[p] == r;
        assert FirstFoundAt(t, from, p);
        r
      else r
  }

  /** Entry `p` is present and none in `[from, p)` is. */
  predicate FirstFoundAt(t: seq<Option<string>>, from: nat, p: int) {
    from <= p < |t| && t[p].Some? && forall q :: from <= q < p ==> t[q].None?
  }

  /** `re.search`: the group of the match at the leftmost index. */
  function Search(pat: Pattern, s: string): (r: Option<string>)
    ensures r.Some? ==> CaptureShape(pat, r.value)
  {
    var t := MatchTable(pat, s);
    var r := FirstFound(t, 0);
    assert r.Some? ==> exists p :: 0 <= p <= |s| && t[p] == r;
    r
  }

  /** `Search` reports exactly the leftmost match of the pattern, and
      nothing when no index starts a match. */
  lemma SearchIsLeftmostMatch(pat: Pattern, s: string)
    ensures Search(pat, s).None? <==> forall p: nat, v :: p <= |s| ==> !Matches(pat, s, p, v)
    ensures Search(pat, s).Some? ==>
      exists p: nat :: p <= |s| && Matches(pat, s, p, Search(pat, s).value)
        && forall q: nat, v :: q < p ==> !Matches(pat, s, q, v)
  {
    var t := MatchTable(pat, s);
    var r := Search(pat, s);
    assert r == FirstFound(t, 0);
    forall p: nat, v | p <= |s|
      ensures Matches(pat, s, p, v) <==> t[p] == Some(v)
    {
      MatchAtIsMatch(pat, s, p, v);
    }
    if r.None? {
      forall p: nat, v | p <= |s| ensures !Matches(pat, s, p, v) {
        assert t[p].None?;
      }
    } else {
      var p :| FirstFoundAt(t, 0, p) && t[p] == r;
      assert Matches(pat, s, p, r.value);
      forall q: nat, v | q < p ensures !Matches(pat, s, q, v) {
        assert t[q].None?;
      }
    }
  }
}

=== FILE: snapshot.dfy ===
/**
 `gather_all`: lower-case the OS name, run the one Wi-Fi probe it
 selects, and combine the result with the basic network record into a
 JSON object with keys "os", "wifi" and "basic".
 */
module Snapshot {
  import opened Wrappers
  import opened Text
  import opened Command
  import opened ColonRecords
  import opened WifiProbes
  import opened LinuxWifi
  import opened NetInfo

  /** Which probe runs. */
  datatype Platform = Windows | MacOS | Linux | Unrecognised

  /** Probe selection on the lower-cased OS name, tested in priority order. */
  function Classify(osname: string): (p: Platform)
    ensures p == Windows <==> IsInfix("windows", osname)
    ensures p == MacOS <==> !IsInfix("windows", osname) && (IsInfix("darwin", osname) || IsInfix("mac", osname))
    ensures p == Linux <==>
      !IsInfix("windows", osname) && !IsInfix("darwin", osname) && !IsInfix("mac", osname) && IsInfix("linux", osname)
  {
    ContainsIsInfix(osname, "windows");
    ContainsIsInfix(osname, "darwin");
    ContainsIsInfix(osname, "mac");
    ContainsIsInfix(osname, "linux");
    if Contains(osname, "windows") then Windows
    else if Contains(osname, "darwin") || Contains(osname, "mac") then MacOS
    else if Contains(osname, "linux") then Linux
    else Unrecognised
  }

  /** Everything the snapshot reads from the host: the platform name, each
      command's outcome, whether `os.name` is "nt", and the interface
      queries. */
  datatype Host = Host(
    system: string,
    netsh: CmdResult,
    airport: CmdResult,
    isNt: bool,
    nmcli: CmdResult,
    iwgetid: CmdResult,
    iwconfig: CmdResult,
    stats: seq<IfStats>,
    addrs: map<string, seq<IfAddr>>,
    hostname: Option<string>)

  /** The record fields a platform's probe can produce. */
  function WifiFields(p: Platform): set<string> {
    match p
    case Windows => NetshFields
    case MacOS => AirportFields
    case Linux => NmcliFields
    case Unrecognised => {}
  }

  /** The Wi-Fi record of the selected probe; empty for an unrecognised OS. */
  function Wifi(p: Platform, h: Host): (info: map<string, string>)
    ensures info.Keys <= WifiFields(p)
    ensures p == Windows ==> info == WindowsWifi(h.netsh)
    ensures p == MacOS ==> info == MacWifi(h.airport, h.isNt)
    ensures p == Linux ==> info == LinuxWifiInfo(h.nmcli, h.iwgetid, h.iwconfig)
    ensures p == Unrecognised ==> info == map[]
  {
    match p
    case Windows => WindowsWifi(h.netsh)
    case MacOS => MacWifi(h.airport, h.isNt)
    case Linux => LinuxWifiInfo(h.nmcli, h.iwgetid, h.iwconfig)
    case Unrecognised => map[]
  }

  /** A JSON value, as the snapshot is served. */
  datatype Json = Null | Str(s: string) | Object(fields: map<string, Json>)

  /** A string map as a JSON object of strings. */
  function StrObject(m: map<string, string>): (j: Json)
    ensures j.Object? && j.fields.Keys == m.Keys
    ensures forall k :: k in m ==> j.fields[k] == Str(m[k])
  {
    Object(map k | k in m :: Str(m[k]))
  }

  /** A map of optional strings as a JSON object; `None` becomes null. */
  function OptObject(m: map<string, Option<string>>): (j: Json)
    ensures j.Object? && j.fields.Keys == m.Keys
    ensures forall k :: k in m ==> j.fields[k] == (if m[k].Some? then Str(m[k].value) else Null)
  {
    Object(map k | k in m :: match m[k] case None => Null case Some(v) => Str(v))
  }

  /** The combined snapshot: exactly the keys "os", "wifi" and "basic"; the
      Wi-Fi object is the record of the probe the OS name selects, and is
      empty when no platform is recognised; the basic object is the basic
      network record. */
  function GatherAll(h: Host): (r: Json)
    ensures r.Object? && r.fields.Keys == {"os", "wifi", "basic"}
    ensures r.fields["os"] == Str(Lower(h.system))
    ensures r.fields["wifi"].Object? && r.fields["wifi"].fields.Keys <= WifiFields(Classify(Lower(h.system)))
    ensures Classify(Lower(h.system)) == Unrecognised ==> r.fields["wifi"] == Object(map[])
    ensures Classify(Lower(h.system)) == Windows ==> r.fields["wifi"] == StrObject(WindowsWifi(h.netsh))
    ensures Classify(Lower(h.system)) == MacOS ==> r.fields["wifi"] == StrObject(MacWifi(h.airport, h.isNt))
    ensures Classify(Lower(h.system)) == Linux ==>
      r.fields["wifi"] == StrObject(LinuxWifiInfo(h.nmcli, h.iwgetid, h.iwconfig))
    ensures r.fields["basic"] == OptObject(BasicNetworkInfo(h.stats, h.addrs, h.hostname))
    ensures r.fields["basic"].Object? && {"interface", "hostname"} <= r.fields["basic"].fields.Keys
  {
    var osname := Lower(h.system);
    Combined(osname, Wifi(Classify(osname), h), BasicNetworkInfo(h.stats, h.addrs, h.hostname))
  }

  /** `{"os": osname, "wifi": wifi, "basic": basic}` */
  function Combined(osname: string, wifi: map<string, string>, basic: map<string, Option<string>>): (r: Json)
    ensures r.Object? && r.fields.Keys == {"os", "wifi", "basic"}
    ensures r.fields["os"] == Str(osname)
    ensures r.fields["wifi"] == StrObject(wifi)
    ensures r.fields["basic"] == OptObject(basic)
  {
    Object(map["os" := Str(osname), "wifi" := StrObject(wifi), "basic" := OptObject(basic)])
  }

  /** Two string maps with the same JSON object are the same map. */
  lemma StrObjectInjective(m: map<string, string>, m': map<string, string>)
    requires StrObject(m) == StrObject(m')
    ensures m == m'
  {
    forall k | k in m ensures m[k] == m'[k] {
      assert StrObject(m).fields[k] == Str(m[k]);
      assert StrObject(m').fields[k] == Str(m'[k]);
    }
  }

  /** Two maps of optional strings with the same JSON object are the same
      map: null stands only for `None`. */
  lemma OptObjectInjective(m: map<string, Option<string>>, m': map<string, Option<string>>)
    requires OptObject(m) == OptObject(m')
    ensures m == m'
  {
    forall k | k in m ensures m[k] == m'[k] {
      assert OptObject(m).fields[k] == OptObject(m').fields[k];
    }
  }

  /** The snapshot loses nothing: equal snapshots come from hosts with the
      same lower-cased OS name, the same Wi-Fi record and the same basic
      record. */
  lemma SnapshotKeepsRecords(h: Host, h': Host)
    requires GatherAll(h) == GatherAll(h')
    ensures Lower(h.system) == Lower(h'.system)
    ensures Wifi(Classify(Lower(h.system)), h) == Wifi(Classify(Lower(h'.system)), h')
    ensures BasicNetworkInfo(h.stats, h.addrs, h.hostname) == BasicNetworkInfo(h'.stats, h'.addrs, h'.hostname)
  {
    assert GatherAll(h).fields["os"] == GatherAll(h').fields["os"];
    StrObjectInjective(Wifi(Classify(Lower(h.system)), h), Wifi(Classify(Lower(h'.system)), h'));
    OptObjectInjective(BasicNetworkInfo(h.stats, h.addrs, h.hostname), BasicNetworkInfo(h'.stats, h'.addrs, h'.hostname));
  }

  /** Command outputs `h` and `h'` agree on for platform `p`'s probe. */
  predicate SameProbeInputs(p: Platform, h: Host, h': Host) {
    match p
    case Windows => h.netsh == h'.netsh
    case MacOS => h.airport == h'.airport && h.isNt == h'.isNt
    case Linux => h.nmcli == h'.nmcli && h.iwgetid == h'.iwgetid && h.iwconfig == h'.iwconfig
    case Unrecognised => true
  }

  /** Exactly one probe runs: the Wi-Fi object depends only on the OS name
      and on the outputs of the selected platform's commands. */
  lemma OnlySelectedProbeMatters(h: Host, h': Host)
    requires h.system == h'.system
    requires SameProbeInputs(Classify(Lower(h.system)), h, h')
    ensures GatherAll(h).fields["wifi"] == GatherAll(h').fields["wifi"]
  {
  }
}

=== FILE: text.dfy ===
/**
 The parts of Python's `str` behaviour the parsers rely on: `strip()`,
 `lower()`, `startswith`, the `in` substring test, `split(":")`,
 `split(":", 1)` and `splitlines()`. Strings are sequences of Unicode
 scalar values, as Python strings are sequences of code points.
 */
module Text {
  import opened Wrappers

  /** The characters for which `str.isspace()` holds: what `strip()` removes
      and what `\s` matches in a `str` regular expression. */
  predicate IsSpace(c: char) {
    || c == ' '
    || '\t' <= c <= '\r'
    || '\U{1C}' <= c <= '\U{1F}'
    || c == '\U{85}' || c == '\U{A0}' || c == '\U{1680}'
    || '\U{2000}' <= c <= '\U{200A}'
    || c == '\U{2028}' || c == '\U{2029}' || c == '\U{202F}' || c == '\U{205F}' || c == '\U{3000}'
  }

  /** The line boundaries of `str.splitlines()`; `\r\n` counts as one boundary. */
  predicate IsLineBreak(c: char) {
    || '\n' <= c <= '\r'
    || '\U{1C}' <= c <= '\U{1E}'
    || c == '\U{85}' || c == '\U{2028}' || c == '\U{2029}'
  }

  /** `\w`, restricted to ASCII. */
  predicate IsWordChar(c: char) {
    ('a' <= c <= 'z') || ('A' <= c <= 'Z') || ('0' <= c <= '9') || c == '_'
  }

  /** Character classes used by the scanners. */
  datatype CharClass =
    | Space
    | LineBreak
    | Word
    | HexOrColon    // [0-9A-Fa-f:]
    | DigitOrMinus  // [-0-9]
    | Exactly(ch: char)
    | Not(cls: CharClass)

  predicate In(cls: CharClass, c: char) {
    match cls
    case Space => IsSpace(c)
    case LineBreak => IsLineBreak(c)
    case Word => IsWordChar(c)
    case HexOrColon => ('0' <= c <= '9') || ('A' <= c <= 'F') || ('a' <= c <= 'f') || c == ':'
    case DigitOrMinus => ('0' <= c <= '9') || c == '-'
    case Exactly(ch) => c == ch
    case Not(inner) => !In(inner, c)
  }

  /** Every character of `t` belongs to `cls`. */
  predicate AllIn(t: string, cls: CharClass) {
    forall k :: 0 <= k < |t| ==> In(cls, t[k])
  }

  /** End of the longest run of `cls` characters that starts at `from`. */
  function RunEnd(s: string, cls: CharClass, from: nat): (e: nat)
    requires from <= |s|
    ensures from <= e <= |s|
    ensures forall k :: from <= k < e ==> In(cls, s[k])
    ensures e == |s| || !In(cls, s[e])
    decreases |s| - from
  {
    if from == |s| || !In(cls, s[from]) then from else RunEnd(s, cls, from + 1)
  }

  /** The end of a maximal run is unique: any index that closes a run of
      `cls` from `from` is the one `RunEnd` finds. */
  lemma RunEndUnique(s: string, cls: CharClass, from: nat, e: nat)
    requires from <= e <= |s|
    requires forall k :: from <= k < e ==> In(cls, s[k])
    requires e == |s| || !In(cls, s[e])
    ensures RunEnd(s, cls, from) == e
  {
  }

  /** `RunEndUnique` for a run given as a slice. */
  lemma SliceRunEnd(s: string, cls: CharClass, from: nat, e: nat)
    requires from <= e <= |s|
    requires AllIn(s[from..e], cls)
    requires e == |s| || !In(cls, s[e])
    ensures RunEnd(s, cls, from) == e
  {
    assert forall k :: from <= k < e ==> s[k] == s[from..e][k - from];
    RunEndUnique(s, cls, from, e);
  }

  /** A run of `cls` characters reaching `e` ends no earlier than `e`. */
  lemma RunEndCovers(s: string, cls: CharClass, from: nat, e: nat)
    requires from <= e <= |s|
    requires forall k :: from <= k < e ==> In(cls, s[k])
    ensures e <= RunEnd(s, cls, from)
  {
  }

  /** Every slice of a run lies inside the class. */
  lemma RunSlice(s: string, cls: CharClass, from: nat, to: nat)
    requires from <= to <= |s|
    requires to <= RunEnd(s, cls, from)
    ensures AllIn(s[from..to], cls)
  {
    assert forall k :: 0 <= k < to - from ==> s[from..to][k] == s[from + k];
  }

  /** Start of the longest run of `cls` characters that ends at `to`. */
  function RunStart(s: string, cls: CharClass, to: nat): (b: nat)
    requires to <= |s|
    ensures b <= to
    ensures forall k :: b <= k < to ==> In(cls, s[k])
    ensures b == 0 || !In(cls, s[b - 1])
  {
    if to == 0 || !In(cls, s[to - 1]) then to else RunStart(s, cls, to - 1)
  }

  /** Index of the first `cls` character at or after `from`. */
  function Find(s: string, cls: CharClass, from: nat): (r: Option<nat>)
    requires from <= |s|
    ensures r.Some? ==> from <= r.value < |s| && In(cls, s[r.value])
    ensures forall k :: from <= k < (if r.Some? then r.value else |s|) ==> !In(cls, s[k])
  {
    var e := RunEnd(s, Not(cls), from);
    if e < |s| then Some(e) else None
  }

  // ---------------------------------------------------------------- strip()

  /** Neither end of `r` is whitespace. */
  predicate Stripped(r: string) {
    r == [] || (!IsSpace(r[0]) && !IsSpace(r[|r| - 1]))
  }

  /** `r` is `s` with all leading and trailing whitespace removed: it is the
      slice of `s` between two all-whitespace margins and has no whitespace
      at either end. */
  ghost predicate IsStripOf(s: string, r: string) {
    && Stripped(r)
    && exists i :: StripAt(s, r, i)
  }

  /** `r` sits at index `i` of `s` with only whitespace around it. */
  predicate StripAt(s: string, r: string, i: int) {
    0 <= i <= |s| - |r| && s[i..i + |r|] == r && AllIn(s[..i], Space) && AllIn(s[i + |r|..], Space)
  }

  /** `str.strip()` with no argument. */
  function Strip(s: string): (r: string)
    ensures IsStripOf(s, r)
  {
    var i := RunEnd(s, Space, 0);
    if i == |s| then
      assert StripAt(s, "", i);
      ""
    else
      var j := RunStart(s, Space, |s|);
      assert s[i..j][0] == s[i] && s[i..j][j - i - 1] == s[j - 1];
      assert StripAt(s, s[i..j], i);
      s[i..j]
  }

  /** A string has exactly one stripped form. */
  lemma StripUnique(s: string, r1: string, r2: string)
    requires IsStripOf(s, r1) && IsStripOf(s, r2)
    ensures r1 == r2
  {
    var i1 :| StripAt(s, r1, i1);
    var i2 :| StripAt(s, r2, i2);
    StripAtMargins(s, r1, i1);
    StripAtMargins(s, r2, i2);
    if r1 != [] && r2 != [] {
      // Each form starts at the first non-space and ends after the last.
      assert i1 == i2;
      assert i1 + |r1| == i2 + |r2|;
    }
  }

  /** Around a stripped form every character is whitespace, and a non-empty
      form begins and ends with a non-space. */
  lemma StripAtMargins(s: string, r: string, i: int)
    requires Stripped(r) && StripAt(s, r, i)
    ensures forall k :: 0 <= k < i ==> IsSpace(s[k])
    ensures forall k :: i + |r| <= k < |s| ==> IsSpace(s[k])
    ensures r != [] ==> !IsSpace(s[i]) && !IsSpace(s[i + |r| - 1])
  {
    assert forall k :: 0 <= k < i ==> s[..i][k] == s[k];
    assert forall k :: i + |r| <= k < |s| ==> s[i + |r|..][k - i - |r|] == s[k];
    assert r != [] ==> s[i] == r[0] && s[i + |r| - 1] == r[|r| - 1];
  }

  /** Stripping twice strips nothing more. */
  lemma StripIdempotent(s: string)
    ensures Strip(Strip(s)) == Strip(s)
  {
    var r := Strip(s);
    assert StripAt(r, r, 0);
    StripUnique(r, r, Strip(r));
  }

  // ---------------------------------------------------------------- lower()

  /** `str.lower()` on one character. Only ASCII capitals and the Kelvin sign
      lower to a plain ASCII letter; other characters are kept. */
  function LowerChar(c: char): char {
    if 'A' <= c <= 'Z' then (c as int + 32) as char
    else if c == '\U{212A}' then 'k'
    else c
  }

  function Lower(s: string): (r: string)
    ensures |r| == |s|
    ensures forall k :: 0 <= k < |s| ==> r[k] == LowerChar(s[k])
  {
    seq(|s|, k requires 0 <= k < |s| => LowerChar(s[k]))
  }

  /** `c` is a spelling of the lower-case key character `k`: `k` itself, its
      ASCII capital, or the Kelvin sign for 'k'. */
  predicate SpellsChar(c: char, k: char) {
    c == k || ('a' <= k <= 'z' && c as int == k as int - 32) || (k == 'k' && c == '\U{212A}')
  }

  /** A key of lower-case letters, spaces and underscores is what `lower()`
      yields exactly for the strings that spell it in any mix of cases. */
  lemma LowerMatchesKey(s: string, key: string)
    requires forall k :: 0 <= k < |key| ==> 'a' <= key[k] <= 'z' || key[k] == ' ' || key[k] == '_'
    ensures Lower(s) == key <==> |s| == |key| && forall k :: 0 <= k < |s| ==> SpellsChar(s[k], key[k])
  {
    if |s| == |key| {
      forall k | 0 <= k < |s|
        ensures LowerChar(s[k]) == key[k] <==> SpellsChar(s[k], key[k])
      {
      }
      if forall k :: 0 <= k < |s| ==> SpellsChar(s[k], key[k]) {
        assert Lower(s) == key;
      }
    }
  }

  /** Lower-casing is idempotent, and its result has no ASCII capital. */
  lemma {:induction false} LowerIdempotent(s: string)
    ensures Lower(Lower(s)) == Lower(s)
    ensures forall k :: 0 <= k < |s| ==> !('A' <= Lower(s)[k] <= 'Z')
  {
    forall k | 0 <= k < |s|
      ensures LowerChar(LowerChar(s[k])) == LowerChar(s[k])
    {
      var c := s[k];
      if 'A' <= c <= 'Z' {
        assert 'a' <= LowerChar(c) <= 'z';
      }
    }
  }

  // ------------------------------------------------- startswith and `in`

  predicate StartsWith(s: string, prefix: string) {
    |prefix| <= |s| && s[..|prefix|] == prefix
  }

  /** `t` occurs somewhere in `s`. */
  ghost predicate IsInfix(t: string, s: string) {
    exists i :: InfixAt(t, s, i)
  }

  /** `t` occurs in `s` at index `i`. */
  predicate InfixAt(t: string, s: string, i: int) {
    0 <= i <= |s| - |t| && s[i..i + |t|] == t
  }

  /** Python's `t in s` on strings. */
  predicate Contains(s: string, t: string)
    decreases |s|
  {
    StartsWith(s, t) || (s != [] && Contains(s[1..], t))
  }

  /** The recursive substring test agrees with the definition of an infix. */
  lemma {:induction false} ContainsIsInfix(s: string, t: string)
    ensures Contains(s, t) <==> IsInfix(t, s)
    decreases |s|
  {
    if StartsWith(s, t) {
      assert InfixAt(t, s, 0);
    } else if s != [] {
      ContainsIsInfix(s[1..], t);
      if IsInfix(t, s[1..]) {
        var i :| InfixAt(t, s[1..], i);
        assert InfixAt(t, s, i + 1);
      }
      if IsInfix(t, s) {
        var i :| InfixAt(t, s, i);
        assert InfixAt(t, s[1..], i - 1);
      }
    }
  }

  // ------------------------------------------------------ split(":", 1)

  /** `s.split(c, 1)` when `c in s`: the text before the first `c` and the
      text after it. `None` when `c` does not occur. */
  function SplitOnce(s: string, c: char): (r: Option<(string, string)>)
    ensures r.Some? <==> c in s
    ensures r.Some? ==> r.value.0 + [c] + r.value.1 == s && c !in r.value.0
  {
    match Find(s, Exactly(c), 0)
    case None => None
    case Some(i) =>
      assert s[..i] + [c] + s[i + 1..] == s;
      Some((s[..i], s[i + 1..]))
  }

  /** Splitting at the first separator recovers any decomposition whose
      first part has no separator; the second part keeps its own separators. */
  lemma SplitOnceOfJoined(k: string, c: char, v: string)
    requires c !in k
    ensures SplitOnce(k + [c] + v, c) == Some((k, v))
  {
    var s := k + [c] + v;
    assert s[|k|] == c;
    var r := SplitOnce(s, c);
    var k', v' := r.value.0, r.value.1;
    assert k' == s[..|k|] == k;
    assert v' == s[|k| + 1..] == v;
  }

  // ------------------------------------------------------------ split(":")

  /** `sep`-joined fields: the inverse of `Split`. */
  function Join(fields: seq<string>, sep: char): string
    decreases |fields|
  {
    if fields == [] then ""
    else if |fields| == 1 then fields[0]
    else fields[0] + [sep] + Join(fields[1..], sep)
  }

  /** `s.split(sep)`: the fields between every occurrence of `sep`. */
  function Split(s: string, sep: char): (fields: seq<string>)
    ensures |fields| >= 1
    ensures forall i :: 0 <= i < |fields| ==> sep !in fields[i]
    ensures Join(fields, sep) == s
    decreases |s|
  {
    match SplitOnce(s, sep)
    case None => [s]
    case Some((head, rest)) => [head] + Split(rest, sep)
  }

  /** Splitting a join of separator-free fields gives the fields back. */
  lemma {:induction false} SplitJoin(fields: seq<string>, sep: char)
    requires fields != []
    requires forall i :: 0 <= i < |fields| ==> sep !in fields[i]
    ensures Split(Join(fields, sep), sep) == fields
    decreases |fields|
  {
    if |fields| == 1 {
      assert sep !in fields[0];
    } else {
      var rest := Join(fields[1..], sep);
      SplitOnceOfJoined(fields[0], sep, rest);
      SplitJoin(fields[1..], sep);
    }
  }

  // ---------------------------------------------------------- splitlines()

  /** Number of characters the line boundary at `i` occupies: two for `\r\n`. */
  function BreakWidth(s: string, i: nat): nat
    requires i < |s|
  {
    if s[i] == '\r' && i + 1 < |s| && s[i + 1] == '\n' then 2 else 1
  }

  /** `s.splitlines()`: the lines without their boundaries; a final boundary
      does not start an extra empty line, and "" has no lines. */
  function SplitLines(s: string): (lines: seq<string>)
    ensures forall i :: 0 <= i < |lines| ==> AllIn(lines[i], Not(LineBreak))
    ensures lines == [] <==> s == []
    decreases |s|
  {
    if s == [] then []
    else match Find(s, LineBreak, 0)
      case None => [s]
      case Some(i) => [s[..i]] + SplitLines(s[i + BreakWidth(s, i)..])
  }

  /** Lines without boundaries joined by "\n", the last one non-empty, as
      in stripped command output: `splitlines()` gives back the lines, the
      last one included. */
  lemma {:induction false} SplitLinesJoin(lines: seq<string>)
    requires lines != [] && lines[|lines| - 1] != []
    requires forall i :: 0 <= i < |lines| ==> AllIn(lines[i], Not(LineBreak))
    ensures SplitLines(Join(lines, '\n')) == lines
    decreases |lines|
  {
    var l, rest := lines[0], lines[1..];
    assert AllIn(l, Not(LineBreak));
    if rest == [] {
      assert Join(lines, '\n') == l;
      SplitLinesLast(l);
    } else {
      assert Join(lines, '\n') == l + "\n" + Join(rest, '\n');
      SplitLinesBreak(l, '\n', Join(rest, '\n'));
      SplitLinesJoin(rest);
    }
  }

  /** A non-empty line without boundaries is a single line. */
  lemma SplitLinesLast(l: string)
    requires l != [] && AllIn(l, Not(LineBreak))
    ensures SplitLines(l) == [l]
  {
    RunEndUnique(l, Not(LineBreak), 0, |l|);
    assert Find(l, LineBreak, 0) == None;
  }

  /** A line without boundaries, then any single line boundary (a "\r" only
      when no "\n" follows it): `splitlines()` yields that line and
      continues after the boundary. */
  lemma SplitLinesBreak(l: string, b: char, rest: string)
    requires AllIn(l, Not(LineBreak)) && IsLineBreak(b)
    requires b == '\r' ==> rest == [] || rest[0] != '\n'
    ensures SplitLines(l + [b] + rest) == [l] + SplitLines(rest)
  {
    var s := l + [b] + rest;
    assert forall k :: 0 <= k < |l| ==> s[k] == l[k];
    assert !In(Not(LineBreak), s[|l|]);
    RunEndUnique(s, Not(LineBreak), 0, |l|);
    assert Find(s, LineBreak, 0) == Some(|l|);
    assert BreakWidth(s, |l|) == 1;
    assert s[..|l|] == l;
    assert s[|l| + 1..] == rest;
  }

  /** A line without boundaries, then "\r\n": the pair is one boundary, so
      no empty line appears between them. */
  lemma SplitLinesCrLf(l: string, rest: string)
    requires AllIn(l, Not(LineBreak))
    ensures SplitLines(l + "\r\n" + rest) == [l] + SplitLines(rest)
  {
    var s := l + "\r\n" + rest;
    assert forall k :: 0 <= k < |l| ==> s[k] == l[k];
    assert !In(Not(LineBreak), s[|l|]);
    RunEndUnique(s, Not(LineBreak), 0, |l|);
    assert Find(s, LineBreak, 0) == Some(|l|);
    assert BreakWidth(s, |l|) == 2;
    assert s[..|l|] == l;
    assert s[|l| + 2..] == rest;
  }
}

=== FILE: wifi_probes.dfy ===
/**
 The Windows and macOS Wi-Fi probes: the output of `netsh wlan show
 interfaces`, or of `airport -I`, read as `key: value` lines.
 */
module WifiProbes {
  import opened Wrappers
  import opened Text
  import opened Command
  import opened ColonRecords

  /** The lines a command's output splits into. */
  function OutputLines(c: CmdResult): seq<string> {
    SplitLines(RunCmd(c))
  }

  /** The Windows probe. Empty output gives an empty record; otherwise each
      whitelisted key's field holds the value of the last line naming it. */
  function WindowsWifi(netsh: CmdResult): (info: map<string, string>)
    ensures info.Keys <= NetshFields
    ensures RunCmd(netsh) == "" ==> info == map[]
    ensures forall f :: f in info <==>
      exists i :: 0 <= i < |OutputLines(netsh)| && Writes(Entry(Netsh, OutputLines(netsh)[i]), f)
    ensures forall f :: f in info ==> exists i :: LastWrite(Entries(Netsh, OutputLines(netsh)), f, info[f], i)
  {
    if RunCmd(netsh) == "" then map[] else Read(Netsh, OutputLines(netsh))
  }

  /** The macOS probe; on a host whose `os.name` is "nt" the tool is not run
      and the record is empty. */
  function MacWifi(airport: CmdResult, isNt: bool): (info: map<string, string>)
    ensures info.Keys <= AirportFields
    ensures isNt || RunCmd(airport) == "" ==> info == map[]
    ensures !isNt ==> forall f :: f in info <==>
      exists i :: 0 <= i < |OutputLines(airport)| && Writes(Entry(Airport, OutputLines(airport)[i]), f)
    ensures !isNt ==> forall f :: f in info ==> exists i :: LastWrite(Entries(Airport, OutputLines(airport)), f, info[f], i)
  {
    if isNt || RunCmd(airport) == "" then map[] else Read(Airport, OutputLines(airport))
  }

  /** netsh's "radio type" is the one key stored under another name; every
      other whitelisted key is stored under itself. */
  lemma NetshRenamesRadioType(key: string)
    ensures FieldOf(Netsh, key) == Some("radio_type") <==> key == "radio type"
    ensures forall f :: f in NetshFields && f != "radio_type" ==> (FieldOf(Netsh, key) == Some(f) <==> key == f)
  {
  }

  /** On macOS "agrctlrssi" and "rssi" both fill `rssi`, "agrctlnoise" and
      "noise" both fill `noise`. */
  lemma AirportAliases(key: string)
    ensures FieldOf(Airport, key) == Some("rssi") <==> key == "agrctlrssi" || key == "rssi"
    ensures FieldOf(Airport, key) == Some("noise") <==> key == "agrctlnoise" || key == "noise"
  {
  }

  /** Every other airport field is filled by the key of its own name. */
  lemma AirportKeepsNames(key: string)
    ensures FieldOf(Airport, key) == Some("ssid") <==> key == "ssid"
    ensures FieldOf(Airport, key) == Some("channel") <==> key == "channel"
    ensures FieldOf(Airport, key) == Some("bssid") <==> key == "bssid"
    ensures FieldOf(Airport, key) == Some("country") <==> key == "country"
  {
  }

  /** A line "Key : Value : extra" names the key "key" and carries the
      value "Value : extra". */
  lemma FirstColonSplitExample()
    ensures KeyValue("Key : Value : extra") == Some(("key", "Value : extra"))
  {
    ExampleLine();
    KeyExample();
    ValueExample();
    KeyValueOfJoined("Key ", " Value : extra");
  }

  lemma ExampleLine()
    ensures "Key " + ":" + " Value : extra" == "Key : Value : extra"
  {
  }

  lemma KeyExample()
    ensures Lower(Strip("Key ")) == "key"
  {
    assert StripAt("Key ", "Key", 0);
    StripUnique("Key ", "Key", Strip("Key "));
  }

  lemma ValueExample()
    ensures Strip(" Value : extra") == "Value : extra"
  {
    assert StripAt(" Value : extra", "Value : extra", 1);
    StripUnique(" Value : extra", "Value : extra", Strip(" Value : extra"));
  }
}

=== FILE: wrappers.dfy ===
/** Python's `None`-or-value results, as an explicit datatype. */
module Wrappers {

  /** A value that may be absent: `None` in the modelled program. */
  datatype Option<+T> = None | Some(value: T)
}
